=== FILE: README.md ===
# Subscription ledger of the StakeAware backend, modelled in Dafny

The backend sells time-boxed access to prediction groups. A payment gateway
(Paystack) posts a `charge.success` webhook. The backend checks it and turns
it into a payment event, then grants or renews the payer's record in a
ledger keyed by email. A chat user later claims the record by presenting the
payment reference (the "link" handshake). An hourly expiry checker sends
reminders to records close to expiry and deactivates records past it.
A separate results bot lets admins queue game lines and post them to the
groups.

The model treats all of this as pure functions over immutable values:

- `Store`: a `Record` per subscriber (email, plan, reference, expiry,
  active flag, optional chat id). The `Ledger` is the email-to-record map
  together with its insertion order, because the link lookup takes the
  first match in that order.
- `Grant`: the grant/renew transition.
- `Events`: the webhook path. It covers the signature guard, event
  filtering, email/amount/plan normalisation, optional gateway
  re-verification, and applying the grant.
- `Linking`: the reference handshake.
- `Redirect`: the browser return route after checkout. It is a second grant
  entry point that verifies the reference with the gateway.
- `Admin`: the key-guarded ledger read.
- `Sweep`: one tick of the expiry checker. It has a functional
  specification (`Settle`, `NoticesFor`, `Notices`, `Swept`) and an
  imperative pass (`Scan`, `Tick`) proved equal to it.
- `ResultsBot`: the admin button and message handlers, with `strip()`
  modelled over Python's whitespace set.
- `Lifecycle`: properties that span several operations, and worked
  examples.
- `Values` and `Settings`: optional values, JSON truthiness (`Given`,
  `GivenId`, `Or`), and the configuration record with its default values.

Some inputs come from outside and are parameters of the model:

- the wall clock `now`;
- every environment setting (`Config`);
- whether the HMAC digest matches (`digestMatches`);
- the gateway's verify-by-reference answer (`GatewayAnswer`);
- the weekday of a post.

Messages the expiry tick sends are returned as a `Notice` list. Apart from
these and the results bot's post targets, no outbound message is modelled.

Behaviour of the code worth noting, which the model keeps:

- The code has no guard against the same reference being applied twice. The
  model has none either. `Grant.RepeatedDeliveryIsIdempotent` shows that a
  repeat at the same instant changes nothing anyway (with positive plan
  durations). A repeat at a later instant extends the window again.
- The code keeps no "reminder sent" mark. `Sweep.ReminderRepeatsEveryTick`
  proves that a record is reminded on every tick while it is inside the
  alert window.
- The plan is any non-empty `plan_type` string, not a two-value enum. Every
  string other than `"daily"` buys the weekend duration.
- Webhook amounts are in minor units and are floor-divided by 100 before
  they are compared with the daily price. A daily charge therefore carries
  `5000000`. A body amount of `50000` buys the weekend plan
  (`Lifecycle.AmountIsInMinorUnits`).
- Two routes write grants. The browser return route (`Redirect.Return`)
  takes its plan from the verified amount alone and ignores `plan_type`. A
  plan the webhook took from metadata is therefore relabelled when the
  buyer's browser returns (`Lifecycle.ReturnOverridesMetadataPlan`), and
  every repeated return renews the record again.

## Model

| member | source | states |
|---|---|---|
| `Store.Put` | render_unified.py:134-137 | storing a record keeps the ledger well formed; an existing email keeps its position and a new one is appended |
| `Grant.GrantOrRenew` | render_unified.py:124-143 | only the entry for the given email changes, and every other entry is untouched; the result carries the new plan and reference and is active; a live record is renewed to an expiry at least its old one and at least one window from now, equal to one of the two, keeping email and chat id; an absent or lapsed record becomes a fresh unlinked record ending one window from now; the action is `Renewed` exactly when the previous record was live |
| `Grant.WindowSeconds` | render_unified.py:127-128 | a plan buys a whole number of days: the daily duration for the plan "daily" and the weekend duration for any other plan |
| `Grant.ExpiryNeverDecreases` | render_unified.py:130-138 | with non-negative plan durations, an email's expiry never moves backwards, whether it is renewed or replaced |
| `Grant.RenewalDoesNotStack` | render_unified.py:131-132 | renewing a live record ends strictly before old expiry plus one window, so remaining time is not added to |
| `Grant.RepeatedDeliveryIsIdempotent` | render_unified.py:124-140 | with positive windows, applying the same email, plan, reference and instant twice leaves ledger and record as after the first call |
| `Events.VerifySignature` | render_unified.py:107-113 | with no webhook secret every request authenticates; otherwise it authenticates exactly when the digest matches |
| `Events.MajorUnits` | render_unified.py:155 | the major-unit amount is the floor of minor units over 100 |
| `Events.PlanFor` | render_unified.py:175-178 | a non-empty `plan_type` in object metadata is the plan; otherwise the plan is "daily" exactly when the amount reaches the daily price, else "weekend" |
| `Events.Normalize` | render_unified.py:145-178 | an empty payload is rejected; a non-`charge.success` event is ignored; a missing reference or email is rejected; when the gateway is asked, a decline or an unreachable gateway is rejected; each of these happens exactly under its condition; a `charge.success` naming a reference and an email is accepted exactly when the gateway is not asked or confirms; on success the event has the body's reference, the gateway's email when it names one (else the body's), the gateway's amount when it reports one (else the body's), and the plan derived from that amount |
| `Events.HandleEvent` | render_unified.py:145-181 | an event is applied through the grant exactly when normalisation succeeds, and the reply names the event's email; every rejected or ignored body leaves the ledger unchanged; the status is 200 exactly for a non-empty body that is either not a `charge.success` or is accepted, and 400 otherwise |
| `Events.Webhook` | render_unified.py:184-192 | a request is refused as an invalid signature (status 400) exactly when a secret is set and the digest differs, with the ledger unchanged; otherwise it is handled as its body says |
| `Events.ChargeEmail` | render_unified.py:154 | a charge names an email exactly when its customer object or its flat field does; the customer object's email wins when it is non-empty |
| `Events.WellFormedChargeIsGranted` | render_unified.py:145-192 | a signed `charge.success` with a reference and an email, confirmed by the gateway when it is asked, is answered 200 and leaves the payer's record active, holding that reference, and running at least one window of the bought plan |
| `Events.GatewayIgnoredWithoutKey` | render_unified.py:160 | without a gateway key, the gateway's answer cannot influence the outcome |
| `Events.ConfirmationWithoutAmountKeepsAmount` | render_unified.py:170 | a confirmation without an amount keeps the body's amount (the ×100 then ÷100 round trip is exact) |
| `Events.EmptySecretAcceptsAnySignature` | render_unified.py:107-109 | with the default empty secret a request with a wrong signature is processed exactly like one with a right signature |
| `Linking.RequestedChat` | render_unified.py:260 | the chat to bind is `chat_id` when it is non-zero, else `telegram_id`; one is given exactly when either is |
| `Linking.RequestedReference` | render_unified.py:261 | the token is `reference` when it is non-empty, else `paystack_reference`; one is given exactly when either is |
| `Linking.FindFrom` | render_unified.py:266-270 | returns the first position at or after the start whose record holds the reference, or reports that none does |
| `Linking.Link` | render_unified.py:260-279 | a missing chat id or reference gives 400; no record holding the reference gives 404; either way nothing changes; otherwise exactly the first record in ledger order holding the reference gets the chat id and is forced active, nothing else changes, and the status is 200 |
| `Redirect.RedirectPlan` | render_unified.py:227-233 | the return route's plan ignores metadata: it is "daily" exactly when the verified amount, floor-divided by 100 (absent read as 0), reaches the daily price, and "weekend" otherwise |
| `Redirect.Return` | render_unified.py:205-234 | a missing reference gives 400; without a gateway key nothing is granted (200); an unreachable gateway gives 500; a declined charge or a verified charge naming no email gives 400; each happens exactly under its condition and leaves the ledger unchanged; otherwise the verified email (with no fallback to anything else) is granted the amount-derived plan under the returned reference |
| `Redirect.ReturnRelabelsPlan` | render_unified.py:227-234 | whatever plan a record held, a confirmed return leaves it active with the amount-derived plan and the returned reference |
| `Admin.AdminRead` | render_unified.py:297-301 | refuses exactly when an admin key is configured and the supplied key differs; otherwise returns the ledger as stored, in ledger order |
| `Admin.KeyHolderAlwaysReads` | render_unified.py:298-300 | the configured key, or any key when none is configured, reads with status 200 |
| `Sweep.DueCasesDisjoint` | render_unified.py:311-321 | only active records are due a reminder or an expiry; a record due a reminder still lies in the future, so it is never also due to expire |
| `Sweep.SettleOnlyClearsActive` | render_unified.py:321-323 | settling a record changes at most its active flag, clears it exactly when the record is due to expire, leaves nothing due to expire, and settling twice is settling once |
| `Sweep.NoticesFor` | render_unified.py:310-325 | a record produces at most one message, so the reminder and expiry cases are disjoint; inactive records and records with expiry 0 produce none; a reminder is produced exactly when the record is active and its expiry lies within the alert window ahead; an expiry notice is produced exactly when it is active and past due |
| `Sweep.ReminderRecipient` | render_unified.py:313-320 | a due reminder goes to the linked chat when one is set, and otherwise to the admin together with the record's reference |
| `Sweep.Notices` | render_unified.py:309-325 | a tick's messages each name a subscriber of the ledger, record by record in ledger order |
| `Sweep.Visit` | render_unified.py:310-325 | one record's treatment: reports expiry exactly when due, leaves the record settled, and produces that record's messages |
| `Sweep.Scan` | render_unified.py:309-325 | the pass in ledger order yields the settled records, the messages of all records in order, and whether any record was due |
| `Sweep.Tick` | render_unified.py:306-327 | every active record with a non-zero expiry that has passed becomes inactive, and every other record is untouched; the messages are the per-record messages in ledger order; the ledger is saved exactly when some record was deactivated, and is unchanged when not |
| `Sweep.Swept` | render_unified.py:321-323 | settling every record keeps the ledger well formed, with the same order and keys |
| `Sweep.NoticesMatchDueRecords` | render_unified.py:311-325 | a tick's messages remind a subscriber exactly when that subscriber's reminder is due, and announce their expiry exactly when their expiry is due |
| `Sweep.ReminderRepeatsEveryTick` | render_unified.py:312-320 | a record inside the alert window is reminded on this tick and again on any later tick while it stays inside the window |
| `Sweep.ExpiryAnnouncedOnce` | render_unified.py:321-325 | a record past expiry is announced by the tick that deactivates it and by no later tick on the saved ledger |
| `Sweep.SecondTickSavesNothing` | render_unified.py:321-327 | right after a tick, a tick at the same instant finds nothing to deactivate, so it does not save |
| `Sweep.SettledUpToFacts` | render_unified.py:321-323 | after the pass has visited a prefix of the order, those records are settled and the rest are as loaded |
| `ResultsBot.AsciiWhitespace` | render_unified.py:512 | the whitespace set `IsSpace` used by the strip agrees with Python's `isspace` on ASCII (space, tab, line feed, carriage return, vertical tab, form feed and the separators 0x1C to 0x1F) and contains nothing above U+3000 |
| `ResultsBot.TrimStart` | render_unified.py:512 | removes exactly the leading whitespace: the result is a suffix, the removed part is all whitespace, and the result does not start with whitespace |
| `ResultsBot.TrimEnd` | render_unified.py:512 | removes exactly the trailing whitespace, symmetrically |
| `ResultsBot.Strip` | render_unified.py:512 | the stripped text is a slice `s[i..j]` of the input with only whitespace before `i` and after `j`; it is blank exactly when the input is all whitespace, and otherwise starts and ends with a visible character |
| `ResultsBot.PostTargets` | render_unified.py:488-492 | a post always goes to the daily group first; it also goes to the weekend group exactly on Friday to Sunday when a weekend group is configured |
| `ResultsBot.OnButton` | render_unified.py:459-504 | non-admins change nothing; "add game" sets the admin's flag; "clear" empties the list; "post" with games empties the list and names the targets; "post" with no games changes nothing; any other button leaves the state alone; only "add game" touches the flags |
| `ResultsBot.OnMessage` | render_unified.py:507-519 | for any text that reaches the listener (commands never do), an admin's flag is consumed whatever the text; the list changes exactly when an admin whose flag was set sends text that is not all whitespace, and it then gains the stripped line at the end |
| `ResultsBot.AddThenSendAppends` | render_unified.py:467-516 | pressing "add game" and then sending a non-blank line appends that line, stripped, and clears the flag |
| `ResultsBot.SecondPostHasNothing` | render_unified.py:482-502 | posting clears the list, so an immediate second post has nothing to send |
| `Lifecycle.GrantedReferenceLinks` | render_unified.py:260-279 | right after a grant, its reference links some subscriber |
| `Lifecycle.OverwrittenReferenceNoLongerLinks` | render_unified.py:266-273 | once a later grant overwrites an email's reference, the earlier reference gives 404 if no other record holds it |
| `Lifecycle.FirstDailyCharge` | render_unified.py:145-181 | a first daily-priced charge on an empty ledger activates an unlinked daily record for thirty days |
| `Lifecycle.AmountIsInMinorUnits` | render_unified.py:155-178 | a body amount of 50000 minor units buys the weekend plan under the default prices |
| `Lifecycle.CheaperRenewalThenStaleLink` | render_unified.py:124-143 | a cheaper second charge inside the first window renews as weekend and ends thirty days from the renewal; it replaces the reference, after which the first reference gives 404 |
| `Lifecycle.RenewalCapsAtOneWindow` | render_unified.py:131-135 | with ten days left and a thirty-day plan, a renewal ends thirty days from now (not forty) and keeps the chat id |
| `Lifecycle.ReturnOverridesMetadataPlan` | render_unified.py:174-234 | a daily-priced charge whose metadata asks for "weekend" is granted as weekend by the webhook; the verified return for the same reference then relabels it "daily" and renews it to thirty days from the return |
| `Lifecycle.OneSecondPastExpiry` | render_unified.py:309-327 | an active record one second past expiry is deactivated by one tick, which sends exactly one message, the expiry notice |

## Left out

- The HMAC-SHA512 digest and its constant-time comparison are library calls. Whether the digest matches is an input to `Events.VerifySignature`.
- The gateway verify-by-reference HTTP call is network I/O. Its outcome is the `GatewayAnswer` input (unreachable or failing, declined, or confirmed with optional email and amount).
- Outbound Telegram messages are not modelled as messages:
  - the admin notice after a grant;
  - the join-group message after a link;
  - the posts to groups, of which only the target list is modelled.
  These are fire-and-forget I/O. The expiry tick's messages are modelled as the `Notice` list.
- JSON file persistence (`load_users`/`save_users`) is file I/O. The ledger is a value. A failed load falling back to an empty ledger is not modelled.
- Request parsing failures are not modelled: invalid JSON bodies (400), non-object JSON payloads (an uncaught error), non-numeric amounts, non-string `plan_type` values and string chat ids. The model's payload types admit only well-typed fields.
- The legacy webhook route (render_unified.py:194-203) is not modelled separately. It parses the body before checking the signature, and for a parseable body its outcome is that of `Events.Webhook`.
- `Redirect.Return` does not model the route's HTML pages, its deep link or its internal request to the admin endpoint, which is logged and otherwise ignored. These are presentation and I/O.
- These are not modelled:
  - the endless loop and hourly sleep around the expiry tick;
  - threads and the asyncio bot runner;
  - Flask route registration and webhook forwarding.
  They are scheduling and bootstrap. Each operation is modelled as atomic, so lost updates between concurrent load/save cycles are out of scope.
- `format_results_text` (float odds parsing and multiplication), the "list games" text and the results bot's `/start` menu are left out. They are presentation.
- Date formatting, keyboards and message templates are presentation, and so is the access bot's `/start` handler.
- The access bot's status handler (render_unified.py:386-404) is outside the ledger core. It reads the ledger through the admin endpoint and runs its own scan for the caller's chat id with `int(u.get("chat_id", 0))`. On a record that was never linked, `chat_id` is stored as `None` (line 137), so this conversion raises. The handler catches the error and answers "Error fetching status" whenever an unlinked record comes before the caller's own record in the endpoint's JSON. That JSON lists the records sorted by email, because `jsonify` sorts keys by default, so "before" means an alphabetically earlier email.
- `ResultsBot.OnButton`: the posted message's delivery count is not modelled, because it depends on send failures (I/O).
- `Admin.AdminRead`: the snapshot keeps ledger (insertion) order. The HTTP response (render_unified.py:301) serialises it with `jsonify`, which sorts the keys, so clients see the records in email order. JSON serialisation is not modelled.
- `ResultsBot.OnMessage`: its text input is only text that reaches the listener. The listener is registered for non-command text (render_unified.py:548), so a `/command` sent while an admin is waiting never reaches it. The flag stays set and nothing is added. Handler registration is not modelled.

=== FILE: admin.dfy ===
/** The admin read of the whole ledger, guarded by an optional key. */
module Admin {
  import opened Settings
  import opened Store

  datatype AdminReply = Unauthorized | Snapshot(ledger: Ledger)

  function Status(r: AdminReply): int {
    if r.Unauthorized? then 401 else 200
  }

  /** Refuses exactly when a key is configured and the supplied one differs;
      otherwise returns the ledger as stored. */
  function AdminRead(l: Ledger, cfg: Config, supplied: string): (r: AdminReply)
    ensures r.Unauthorized? <==> cfg.adminKey != "" && supplied != cfg.adminKey
    ensures r.Snapshot? ==> r.ledger == l
  {
    if cfg.adminKey != "" && supplied != cfg.adminKey then Unauthorized else Snapshot(l)
  }

  /** The configured key is always accepted, and with no key configured
      every caller reads the ledger. */
  lemma KeyHolderAlwaysReads(l: Ledger, cfg: Config, supplied: string)
    requires supplied == cfg.adminKey || cfg.adminKey == ""
    ensures Status(AdminRead(l, cfg, supplied)) == 200
  {
  }
}

=== FILE: events.dfy ===
/** The payment webhook: signature guard, event filtering, normalisation of
    a charge notification into a payment event, optional re-verification
    with the gateway, and application of the resulting grant. */
module Events {
  import opened Values
  import opened Settings
  import opened Store
  import opened Grant

  /** The charge fields shared by the webhook body and the gateway's answer:
      `customer.email`, the flat `customer_email`, and `amount` in minor units. */
  datatype Charge = Charge(customerEmail: Option<string>, flatEmail: Option<string>, amount: Option<int>)

  /** `metadata`: absent or false, an object (whose `plan_type` may be set), or some other JSON value. */
  datatype Metadata = NoMetadata | MetadataObject(planType: Option<string>) | MetadataOther

  datatype ChargeData = ChargeData(reference: Option<string>, charge: Charge, metadata: Metadata)

  /** A parsed webhook body; `EmptyPayload` stands for any false JSON value (null, `{}`). */
  datatype Payload = EmptyPayload | Payload(event: Option<string>, data: Option<ChargeData>)

  /** What the gateway's verify-by-reference lookup answered: the call
      failed, the charge was not a success, or it was confirmed. */
  datatype GatewayAnswer = GatewayUnreachable | GatewayDeclined | GatewayConfirmed(charge: Charge)

  datatype PaymentEvent = PaymentEvent(reference: string, email: string, plan: string, amount: int)

  datatype Reply =
    | InvalidSignature
    | EmptyPayloadRejected
    | Ignored
    | MissingReferenceOrEmail
    | VerificationFailed
    | VerificationError
    | Accepted(email: string)

  datatype EventOutcome = EventOutcome(reply: Reply, ledger: Ledger)

  const ChargeSuccess: string := "charge.success"

  function Status(r: Reply): int {
    match r
    case Ignored => 200
    case Accepted(_) => 200
    case _ => 400
  }

  /** The signature check. The keyed-digest comparison is external and given
      as `digestMatches`; with no secret configured every request passes. */
  function VerifySignature(secret: string, digestMatches: bool): (ok: bool)
    ensures secret == "" ==> ok
    ensures secret != "" ==> (ok <==> digestMatches)
  {
    if secret == "" then true else digestMatches
  }

  /** Floor division of a minor-unit amount by 100. */
  function MajorUnits(minor: int): (r: int)
    ensures 100 * r <= minor < 100 * r + 100
  {
    minor / 100
  }

  const NoData: ChargeData := ChargeData(None, Charge(None, None, None), NoMetadata)

  /** `data`, with an absent or false value read as an empty object. */
  function DataOf(p: Payload): ChargeData
    requires p.Payload?
  {
    if p.data.Some? then p.data.value else NoData
  }

  /** The email a charge names: the customer object's, else the flat field. */
  function ChargeEmail(c: Charge): (r: Option<string>)
    ensures Given(r) <==> Given(c.customerEmail) || Given(c.flatEmail)
    ensures Given(c.customerEmail) ==> r == c.customerEmail
    ensures !Given(c.customerEmail) ==> r == c.flatEmail
  {
    Or(c.customerEmail, c.flatEmail)
  }

  /** The plan a charge buys: an explicit non-empty `plan_type` wins;
      otherwise "daily" at or above the daily price and "weekend" below it. */
  function PlanFor(md: Metadata, amount: int, cfg: Config): (plan: string)
    ensures md.MetadataObject? && Given(md.planType) ==> plan == md.planType.value
    ensures !(md.MetadataObject? && Given(md.planType)) ==>
              (plan == "daily" <==> amount >= cfg.dailyPlanAmount) && (plan == "daily" || plan == "weekend")
  {
    var explicit := if md.MetadataObject? then md.planType else None;
    if Given(explicit) then explicit.value
    else if amount >= cfg.dailyPlanAmount then "daily" else "weekend"
  }

  /** Whether the gateway is asked at all. */
  predicate Reverifies(cfg: Config) {
    cfg.gatewayKey != ""
  }

  /** The charge event a webhook body describes, or the reply that rejects or
      ignores it. When the gateway is asked and confirms, its email (if it
      names one) and its amount (if it reports one) replace the body's. */
  function Normalize(p: Payload, cfg: Config, gw: GatewayAnswer): (r: Result<PaymentEvent, Reply>)
    ensures r == Failure(EmptyPayloadRejected) <==> p.EmptyPayload?
    ensures r == Failure(Ignored) <==> p.Payload? && p.event != Some(ChargeSuccess)
    ensures r == Failure(MissingReferenceOrEmail) <==>
              p.Payload? && p.event == Some(ChargeSuccess)
              && !(Given(DataOf(p).reference) && Given(ChargeEmail(DataOf(p).charge)))
    ensures r == Failure(VerificationFailed) <==>
              p.Payload? && p.event == Some(ChargeSuccess)
              && Given(DataOf(p).reference) && Given(ChargeEmail(DataOf(p).charge))
              && Reverifies(cfg) && gw.GatewayDeclined?
    ensures r == Failure(VerificationError) <==>
              p.Payload? && p.event == Some(ChargeSuccess)
              && Given(DataOf(p).reference) && Given(ChargeEmail(DataOf(p).charge))
              && Reverifies(cfg) && gw.GatewayUnreachable?
    ensures r.Success? <==>
              p.Payload? && p.event == Some(ChargeSuccess)
              && Given(DataOf(p).reference) && Given(ChargeEmail(DataOf(p).charge))
              && (Reverifies(cfg) ==> gw.GatewayConfirmed?)
    ensures r.Failure? ==> !r.error.Accepted? && r.error != InvalidSignature
    ensures r.Success? ==>
              var d := DataOf(p);
              var confirmed := Reverifies(cfg) && gw.GatewayConfirmed?;
              && r.value.reference == d.reference.value
              && r.value.email != ""
              && (confirmed && Given(ChargeEmail(gw.charge)) ==> r.value.email == ChargeEmail(gw.charge).value)
              && (!(confirmed && Given(ChargeEmail(gw.charge))) ==> r.value.email == ChargeEmail(d.charge).value)
              && (confirmed && gw.charge.amount.Some? ==> r.value.amount == MajorUnits(gw.charge.amount.value))
              && (!(confirmed && gw.charge.amount.Some?) ==>
                    r.value.amount == MajorUnits(if d.charge.amount.Some? then d.charge.amount.value else 0))
              && r.value.plan == PlanFor(d.metadata, r.value.amount, cfg)
  {
    if p.EmptyPayload? then Failure(EmptyPayloadRejected)
    else if p.event != Some(ChargeSuccess) then Failure(Ignored)
    else
      var d := DataOf(p);
      var email := ChargeEmail(d.charge);
      var amount := MajorUnits(if d.charge.amount.Some? then d.charge.amount.value else 0);
      if !Given(d.reference) || !Given(email) then Failure(MissingReferenceOrEmail)
      else if Reverifies(cfg) && gw.GatewayUnreachable? then Failure(VerificationError)
      else if Reverifies(cfg) && gw.GatewayDeclined? then Failure(VerificationFailed)
      else
        var email' := if Reverifies(cfg) then Or(ChargeEmail(gw.charge), email) else email;
        var amount' :=
          if Reverifies(cfg) then MajorUnits(if gw.charge.amount.Some? then gw.charge.amount.value else amount * 100)
          else amount;
        Success(PaymentEvent(d.reference.value, email'.value, PlanFor(d.metadata, amount', cfg), amount'))
  }

  /** Handles one parsed webhook body at time `now`: a normalised event is
      applied to the ledger, every other outcome leaves the ledger alone. */
  function HandleEvent(l: Ledger, p: Payload, cfg: Config, gw: GatewayAnswer, now: int): (o: EventOutcome)
    requires Valid(l)
    ensures Valid(o.ledger)
    ensures !o.reply.Accepted? ==> o.ledger == l
    ensures o.reply.Accepted? <==> Normalize(p, cfg, gw).Success?
    ensures Status(o.reply) == 200 <==>
              p.Payload? && (p.event == Some(ChargeSuccess) ==> Normalize(p, cfg, gw).Success?)
    ensures Status(o.reply) != 200 ==> Status(o.reply) == 400
    ensures o.reply.Accepted? ==>
              var ev := Normalize(p, cfg, gw).value;
              && o.reply.email == ev.email
              && o.ledger == GrantOrRenew(l, ev.email, ev.plan, ev.reference, now, cfg).ledger
  {
    match Normalize(p, cfg, gw)
    case Failure(reply) => EventOutcome(reply, l)
    case Success(ev) =>
      EventOutcome(Accepted(ev.email), GrantOrRenew(l, ev.email, ev.plan, ev.reference, now, cfg).ledger)
  }

  /** The webhook endpoint: a request whose signature fails is rejected
      before its body is looked at. */
  function Webhook(l: Ledger, digestMatches: bool, p: Payload, cfg: Config, gw: GatewayAnswer, now: int): (o: EventOutcome)
    requires Valid(l)
    ensures Valid(o.ledger)
    ensures o.reply == InvalidSignature <==> cfg.webhookSecret != "" && !digestMatches
    ensures o.reply != InvalidSignature ==> o == HandleEvent(l, p, cfg, gw, now)
    ensures o.reply == InvalidSignature ==> o.ledger == l && Status(o.reply) == 400
  {
    if !VerifySignature(cfg.webhookSecret, digestMatches) then EventOutcome(InvalidSignature, l)
    else HandleEvent(l, p, cfg, gw, now)
  }

  /** Without a gateway key the gateway's answer is never consulted. */
  lemma GatewayIgnoredWithoutKey(p: Payload, cfg: Config, gw1: GatewayAnswer, gw2: GatewayAnswer)
    requires !Reverifies(cfg)
    ensures Normalize(p, cfg, gw1) == Normalize(p, cfg, gw2)
  {
  }

  /** A confirmation that reports no amount keeps the body's amount: the
      round trip through minor units (times 100, floor-divided by 100) is exact. */
  lemma ConfirmationWithoutAmountKeepsAmount(p: Payload, cfg: Config, c: Charge)
    requires Reverifies(cfg) && c.amount == None
    requires Normalize(p, cfg, GatewayConfirmed(c)).Success?
    ensures Normalize(p, cfg, GatewayConfirmed(c)).value.amount
              == MajorUnits(if DataOf(p).charge.amount.Some? then DataOf(p).charge.amount.value else 0)
  {
  }

  /** The signature check only bites when a secret is configured: with the
      default empty secret a forged body is processed like a genuine one. */
  lemma EmptySecretAcceptsAnySignature(l: Ledger, p: Payload, cfg: Config, gw: GatewayAnswer, now: int)
    requires Valid(l)
    requires cfg.webhookSecret == ""
    ensures Webhook(l, false, p, cfg, gw, now) == Webhook(l, true, p, cfg, gw, now)
  {
  }

  /** A signed `charge.success` naming a reference and an email is accepted
      with status 200 whenever the gateway, if asked, confirms it; the
      email's record then holds that reference, is active, and runs for at
      least one window of the plan the charge buys. */
  lemma WellFormedChargeIsGranted(l: Ledger, digestMatches: bool, p: Payload, cfg: Config, gw: GatewayAnswer, now: int)
    requires Valid(l)
    requires VerifySignature(cfg.webhookSecret, digestMatches)
    requires p.Payload? && p.event == Some(ChargeSuccess)
    requires Given(DataOf(p).reference) && Given(ChargeEmail(DataOf(p).charge))
    requires Reverifies(cfg) ==> gw.GatewayConfirmed?
    ensures var o := Webhook(l, digestMatches, p, cfg, gw, now);
            var ev := Normalize(p, cfg, gw).value;
            && Status(o.reply) == 200
            && o.reply == Accepted(ev.email)
            && ev.email in o.ledger.users
            && o.ledger.users[ev.email].reference == DataOf(p).reference.value
            && o.ledger.users[ev.email].active
            && o.ledger.users[ev.email].expiresAt >= now + WindowSeconds(cfg, ev.plan)
  {
  }
}

=== FILE: grant.dfy ===
/** The grant/renew transition applied for every accepted charge. */
module Grant {
  import opened Values
  import opened Settings
  import opened Store

  datatype Action = Activated | Renewed

  datatype GrantOutcome = GrantOutcome(ledger: Ledger, record: Record, action: Action)

  /** Length in seconds of the window a plan buys: the daily duration for the
      plan string "daily" and the weekend duration for every other string. */
  function WindowSeconds(cfg: Config, plan: string): (w: int)
    ensures w % SecondsPerDay == 0
    ensures plan == "daily" ==> w / SecondsPerDay == cfg.dailyPlanDuration
    ensures plan != "daily" ==> w / SecondsPerDay == cfg.weekendPlanDuration
  {
    (if plan == "daily" then cfg.dailyPlanDuration else cfg.weekendPlanDuration) * SecondsPerDay
  }

  /** A record whose expiry is still in the future. */
  predicate Live(r: Record, now: int) {
    r.expiresAt > now
  }

  function Max(a: int, b: int): int {
    if a < b then b else a
  }

  /** Applies a charge for `email` at time `now`. A live record is renewed in
      place; an absent or lapsed one is replaced by a fresh, unlinked record. */
  function GrantOrRenew(l: Ledger, email: string, plan: string, reference: string, now: int, cfg: Config): (g: GrantOutcome)
    requires Valid(l)
    ensures Valid(g.ledger)
    ensures g.ledger.users.Keys == l.users.Keys + {email}
    ensures email in l.users ==> g.ledger.order == l.order
    ensures email !in l.users ==> g.ledger.order == l.order + [email]
    ensures forall e :: e in l.users && e != email ==> g.ledger.users[e] == l.users[e]
    ensures g.ledger.users[email] == g.record
    ensures g.record.plan == plan && g.record.reference == reference && g.record.active
    ensures g.record.expiresAt >= now + WindowSeconds(cfg, plan)
    ensures g.action == Renewed <==> email in l.users && Live(l.users[email], now)
    ensures g.action == Renewed ==>
      var prev := l.users[email];
      && g.record.expiresAt >= prev.expiresAt
      && (g.record.expiresAt == prev.expiresAt || g.record.expiresAt == now + WindowSeconds(cfg, plan))
      && g.record.email == prev.email
      && g.record.chatId == prev.chatId
    ensures g.action == Activated ==>
      && g.record.expiresAt == now + WindowSeconds(cfg, plan)
      && g.record.email == email
      && g.record.chatId == None
  {
    var window := WindowSeconds(cfg, plan);
    if email in l.users && Live(l.users[email], now) then
      var prev := l.users[email];
      var r := prev.(plan := plan, reference := reference, expiresAt := Max(prev.expiresAt, now + window), active := true);
      GrantOutcome(Put(l, email, r), r, Renewed)
    else
      var r := Record(email, plan, reference, now + window, true, None);
      GrantOutcome(Put(l, email, r), r, Activated)
  }

  /** With non-negative plan durations an email's expiry never moves back,
      whether its record is renewed or replaced. */
  lemma ExpiryNeverDecreases(l: Ledger, email: string, plan: string, reference: string, now: int, cfg: Config)
    requires Valid(l)
    requires cfg.dailyPlanDuration >= 0 && cfg.weekendPlanDuration >= 0
    requires email in l.users
    ensures GrantOrRenew(l, email, plan, reference, now, cfg).record.expiresAt >= l.users[email].expiresAt
  {
  }

  /** Renewing a live record does not add the new window on top of the time
      left: the result stays below the old expiry plus one window. */
  lemma RenewalDoesNotStack(l: Ledger, email: string, plan: string, reference: string, now: int, cfg: Config)
    requires Valid(l)
    requires email in l.users && Live(l.users[email], now)
    requires WindowSeconds(cfg, plan) > 0
    ensures GrantOrRenew(l, email, plan, reference, now, cfg).record.expiresAt
              < l.users[email].expiresAt + WindowSeconds(cfg, plan)
  {
  }

  /** Delivering the same charge twice at the same instant changes nothing
      the second time, provided plan windows are positive. */
  lemma RepeatedDeliveryIsIdempotent(l: Ledger, email: string, plan: string, reference: string, now: int, cfg: Config)
    requires Valid(l)
    requires WindowSeconds(cfg, plan) > 0
    ensures var g1 := GrantOrRenew(l, email, plan, reference, now, cfg);
            var g2 := GrantOrRenew(g1.ledger, email, plan, reference, now, cfg);
            g2.ledger == g1.ledger && g2.record == g1.record && g2.action == Renewed
  {
  }
}

=== FILE: lifecycle.dfy ===
/** Properties that span several operations: the link handshake after
    grants, and worked examples of one subscriber's life. */
module Lifecycle {
  import opened Values
  import opened Settings
  import opened Store
  import opened Grant
  import opened Events
  import opened Linking
  import opened Sweep
  import Redirect

  function LinkBy(reference: string, chat: int): LinkRequest {
    LinkRequest(Some(chat), None, Some(reference), None)
  }

  /** Right after a grant, its reference links some subscriber. */
  lemma GrantedReferenceLinks(l: Ledger, email: string, plan: string, reference: string, now: int, cfg: Config, chat: int)
    requires Valid(l)
    requires reference != "" && chat != 0
    ensures Link(GrantOrRenew(l, email, plan, reference, now, cfg).ledger, LinkBy(reference, chat)).reply.Linked?
  {
  }

  /** Only the latest reference is stored, so once a renewal overwrites it
      the earlier reference no longer links (unless another record holds it). */
  lemma OverwrittenReferenceNoLongerLinks(
    l: Ledger, email: string, plan: string, oldRef: string, newRef: string, now: int, cfg: Config, chat: int)
    requires Valid(l)
    requires oldRef != "" && oldRef != newRef && chat != 0
    requires forall e :: e in l.users && e != email ==> l.users[e].reference != oldRef
    ensures Link(GrantOrRenew(l, email, plan, newRef, now, cfg).ledger, LinkBy(oldRef, chat)).reply == NotFound
  {
  }

  const Alice: string := "a@x.com"

  function ChargeEvent(reference: string, minorAmount: int): Payload {
    Payload(Some(ChargeSuccess),
            Some(ChargeData(Some(reference), Charge(Some(Alice), None, Some(minorAmount)), NoMetadata)))
  }

  /** A first charge of the daily price (50000 in major units) on an empty
      ledger activates a daily record for thirty days. */
  lemma FirstDailyCharge(now: int, gw: GatewayAnswer)
    ensures var o := HandleEvent(Empty, ChargeEvent("R1", 5000000), Defaults, gw, now);
            && o.reply == Accepted(Alice)
            && o.ledger.order == [Alice]
            && o.ledger.users[Alice] == Record(Alice, "daily", "R1", now + 30 * SecondsPerDay, true, None)
  {
  }

  /** The amount is read in minor units: a body amount of 50000 is 500 in
      major units and buys the weekend plan. */
  lemma AmountIsInMinorUnits(now: int, gw: GatewayAnswer)
    ensures Normalize(ChargeEvent("R1", 50000), Defaults, gw).value.plan == "weekend"
  {
  }

  /** A cheaper second charge inside the first window renews as weekend,
      caps the expiry at thirty days from the renewal, and replaces the
      reference, after which the first reference no longer links. */
  lemma CheaperRenewalThenStaleLink(now: int, later: int, gw: GatewayAnswer)
    requires now <= later < now + 30 * SecondsPerDay
    ensures var l1 := HandleEvent(Empty, ChargeEvent("R1", 5000000), Defaults, gw, now).ledger;
            var l2 := HandleEvent(l1, ChargeEvent("R2", 2000000), Defaults, gw, later).ledger;
            && l2.users[Alice] == Record(Alice, "weekend", "R2", later + 30 * SecondsPerDay, true, None)
            && Link(l2, LinkBy("R1", 123)).reply == NotFound
  {
    FirstDailyCharge(now, gw);
    var first := Record(Alice, "daily", "R1", now + 30 * SecondsPerDay, true, None);
    var l1 := HandleEvent(Empty, ChargeEvent("R1", 5000000), Defaults, gw, now).ledger;
    assert l1.users.Keys == {Alice};
    assert l1 == Ledger([Alice], map[Alice := first]);
    var l2 := HandleEvent(l1, ChargeEvent("R2", 2000000), Defaults, gw, later).ledger;
    assert l2 == Ledger([Alice], map[Alice := first.(plan := "weekend", reference := "R2", expiresAt := later + 30 * SecondsPerDay)]);
  }

  /** With ten days left and a thirty-day plan, a renewal ends thirty days
      from now, not forty. */
  lemma RenewalCapsAtOneWindow(now: int, reference: string)
    ensures var prev := Record(Alice, "daily", "R0", now + 10 * SecondsPerDay, true, Some(7));
            var l := Ledger([Alice], map[Alice := prev]);
            var r := GrantOrRenew(l, Alice, "daily", reference, now, Defaults).record;
            r.expiresAt == now + 30 * SecondsPerDay && r.chatId == Some(7)
  {
  }

  /** An active record one second past its expiry is deactivated by one
      tick, which sends exactly one message: the expiry notice. */
  lemma OneSecondPastExpiry(now: int)
    requires now != 1
    ensures var l := Ledger([Alice], map[Alice := Record(Alice, "daily", "R1", now - 1, true, Some(123))]);
            && Notices(l.order, l.users, now, Defaults) == [AdminExpired(Alice)]
            && !Swept(l, now).users[Alice].active
  {
  }

  /** A daily-priced charge whose metadata asks for the weekend plan is
      granted as weekend by the webhook; the gateway-verified return for the
      same reference then relabels the record daily, from the amount alone. */
  lemma ReturnOverridesMetadataPlan(now: int, later: int)
    requires now <= later < now + 30 * SecondsPerDay
    ensures var cfg := Defaults.(gatewayKey := "sk");
            var c := Charge(Some(Alice), None, Some(5000000));
            var body := Payload(Some(ChargeSuccess), Some(ChargeData(Some("R1"), c, MetadataObject(Some("weekend")))));
            var l1 := HandleEvent(Empty, body, cfg, GatewayConfirmed(c), now).ledger;
            var l2 := Redirect.Return(l1, Some("R1"), cfg, GatewayConfirmed(c), later).ledger;
            && l1.users[Alice].plan == "weekend"
            && l2.users[Alice].plan == "daily"
            && l2.users[Alice].expiresAt == later + 30 * SecondsPerDay
  {
  }
}

=== FILE: linking.dfy ===
/** Binding a chat identity to a ledger record through the payment
    reference used as a handshake token. */
module Linking {
  import opened Values
  import opened Store

  /** The link request body: `chat_id` or `telegram_id`, and `reference` or `paystack_reference`. */
  datatype LinkRequest = LinkRequest(
    chatId: Option<int>, telegramId: Option<int>,
    reference: Option<string>, paystackReference: Option<string>)

  datatype LinkReply = MissingChatOrReference | NotFound | Linked(email: string)

  datatype LinkOutcome = LinkOutcome(reply: LinkReply, ledger: Ledger)

  function Status(r: LinkReply): int {
    match r
    case MissingChatOrReference => 400
    case NotFound => 404
    case Linked(_) => 200
  }

  /** The chat to bind: `chat_id` when it is set and non-zero, else `telegram_id`. */
  function RequestedChat(req: LinkRequest): (r: Option<int>)
    ensures GivenId(r) <==> GivenId(req.chatId) || GivenId(req.telegramId)
    ensures GivenId(req.chatId) ==> r == req.chatId
    ensures !GivenId(req.chatId) ==> r == req.telegramId
  {
    OrId(req.chatId, req.telegramId)
  }

  /** The handshake token: `reference` when it is non-empty, else `paystack_reference`. */
  function RequestedReference(req: LinkRequest): (r: Option<string>)
    ensures Given(r) <==> Given(req.reference) || Given(req.paystackReference)
    ensures Given(req.reference) ==> r == req.reference
    ensures !Given(req.reference) ==> r == req.paystackReference
  {
    Or(req.reference, req.paystackReference)
  }

  /** The position, at or after `k`, of the first record in ledger order whose
      stored reference is `reference`. */
  function FindFrom(l: Ledger, reference: string, k: nat): (r: Option<nat>)
    requires Valid(l)
    requires k <= |l.order|
    ensures r.Some? ==>
              && k <= r.value < |l.order|
              && l.users[l.order[r.value]].reference == reference
              && forall j :: k <= j < r.value ==> l.users[l.order[j]].reference != reference
    ensures r.None? ==> forall j :: k <= j < |l.order| ==> l.users[l.order[j]].reference != reference
    decreases |l.order| - k
  {
    if k == |l.order| then None
    else if l.users[l.order[k]].reference == reference then Some(k)
    else FindFrom(l, reference, k + 1)
  }

  /** `e` is the first email, in ledger order, whose record holds `reference`. */
  ghost predicate FirstHolder(l: Ledger, reference: string, e: string)
    requires Valid(l)
  {
    exists i :: 0 <= i < |l.order| && l.order[i] == e && l.users[e].reference == reference
      && forall j :: 0 <= j < i ==> l.users[l.order[j]].reference != reference
  }

  /** Handles a link request: the first record holding the reference gets
      the chat identity and is forced active; nothing else changes. */
  function Link(l: Ledger, req: LinkRequest): (o: LinkOutcome)
    requires Valid(l)
    ensures Valid(o.ledger)
    ensures o.reply == MissingChatOrReference <==>
              !GivenId(RequestedChat(req)) || !Given(RequestedReference(req))
    ensures o.reply == NotFound <==>
              && GivenId(RequestedChat(req)) && Given(RequestedReference(req))
              && forall e :: e in l.users ==> l.users[e].reference != RequestedReference(req).value
    ensures Status(o.reply) == 200 <==> o.reply.Linked?
    ensures !o.reply.Linked? ==> o.ledger == l
    ensures o.reply.Linked? ==>
              var e := o.reply.email;
              && e in l.users
              && FirstHolder(l, RequestedReference(req).value, e)
              && o.ledger.order == l.order
              && o.ledger.users == l.users[e := l.users[e].(chatId := RequestedChat(req), active := true)]
              && GivenId(o.ledger.users[e].chatId)
  {
    var chat := RequestedChat(req);
    var reference := RequestedReference(req);
    if !GivenId(chat) || !Given(reference) then LinkOutcome(MissingChatOrReference, l)
    else
      match FindFrom(l, reference.value, 0)
      case None =>
        assert forall e :: e in l.users ==> l.users[e].reference != reference.value by {
          forall e | e in l.users
            ensures l.users[e].reference != reference.value
          {
            assert e in l.order;
            var i :| 0 <= i < |l.order| && l.order[i] == e;
          }
        }
        LinkOutcome(NotFound, l)
      case Some(i) =>
        var e := l.order[i];
        var u := l.users[e].(chatId := chat, active := true);
        LinkOutcome(Linked(e), Ledger(l.order, l.users[e := u]))
  }
}

=== FILE: redirect.dfy ===
/** The browser return route after checkout: a second entry point into the
    grant. With a gateway key configured it verifies the reference and grants
    the plan the verified amount buys to the verified email. */
module Redirect {
  import opened Values
  import opened Settings
  import opened Store
  import opened Grant
  import opened Events

  datatype RedirectReply =
    | MissingReference
    | NotVerified
    | GatewayError
    | VerificationDeclined
    | NoCustomerEmail
    | Granted(email: string)

  datatype RedirectOutcome = RedirectOutcome(reply: RedirectReply, ledger: Ledger)

  function Status(r: RedirectReply): int {
    match r
    case MissingReference => 400
    case NotVerified => 200
    case GatewayError => 500
    case VerificationDeclined => 400
    case NoCustomerEmail => 400
    case Granted(_) => 200
  }

  /** The plan the redirect grants: metadata is never consulted, only the
      verified amount (in minor units, absent read as 0) against the daily price. */
  function RedirectPlan(c: Charge, cfg: Config): (plan: string)
    ensures plan == "daily" || plan == "weekend"
    ensures plan == "daily" <==> MajorUnits(if c.amount.Some? then c.amount.value else 0) >= cfg.dailyPlanAmount
  {
    PlanFor(NoMetadata, MajorUnits(if c.amount.Some? then c.amount.value else 0), cfg)
  }

  /** Handles a return with query parameter `reference` at time `now`. */
  function Return(l: Ledger, reference: Option<string>, cfg: Config, gw: GatewayAnswer, now: int): (o: RedirectOutcome)
    requires Valid(l)
    ensures Valid(o.ledger)
    ensures o.reply == MissingReference <==> !Given(reference)
    ensures o.reply == NotVerified <==> Given(reference) && !Reverifies(cfg)
    ensures o.reply == GatewayError <==> Given(reference) && Reverifies(cfg) && gw.GatewayUnreachable?
    ensures o.reply == VerificationDeclined <==> Given(reference) && Reverifies(cfg) && gw.GatewayDeclined?
    ensures o.reply == NoCustomerEmail <==>
              Given(reference) && Reverifies(cfg) && gw.GatewayConfirmed? && !Given(ChargeEmail(gw.charge))
    ensures !o.reply.Granted? ==> o.ledger == l
    ensures o.reply.Granted? ==>
              && Status(o.reply) == 200
              && Some(o.reply.email) == ChargeEmail(gw.charge)
              && o.ledger == GrantOrRenew(l, o.reply.email, RedirectPlan(gw.charge, cfg), reference.value, now, cfg).ledger
  {
    if !Given(reference) then RedirectOutcome(MissingReference, l)
    else if !Reverifies(cfg) then RedirectOutcome(NotVerified, l)
    else
      match gw
      case GatewayUnreachable => RedirectOutcome(GatewayError, l)
      case GatewayDeclined => RedirectOutcome(VerificationDeclined, l)
      case GatewayConfirmed(c) =>
        var email := ChargeEmail(c);
        if !Given(email) then RedirectOutcome(NoCustomerEmail, l)
        else
          RedirectOutcome(Granted(email.value),
                          GrantOrRenew(l, email.value, RedirectPlan(c, cfg), reference.value, now, cfg).ledger)
  }

  /** Whatever plan a record held, a confirmed return overwrites it with the
      plan the verified amount buys, and stores the returned reference. */
  lemma ReturnRelabelsPlan(l: Ledger, reference: string, cfg: Config, c: Charge, now: int)
    requires Valid(l)
    requires reference != "" && Reverifies(cfg) && Given(ChargeEmail(c))
    ensures var o := Return(l, Some(reference), cfg, GatewayConfirmed(c), now);
            var e := ChargeEmail(c).value;
            && o.reply == Granted(e)
            && o.ledger.users[e].plan == RedirectPlan(c, cfg)
            && o.ledger.users[e].reference == reference
            && o.ledger.users[e].active
  {
  }
}

=== FILE: results_bot.dfy ===
/** The results bot's admin flow: an in-memory list of game lines and a
    per-admin "awaiting a game line" flag. */
module ResultsBot {
  import opened Settings

  datatype BotState = BotState(games: seq<string>, awaiting: map<int, bool>)

  datatype BotReply =
    | NotAuthorized
    | AskForGame
    | ShowGames
    | GamesCleared
    | NothingToPost
    | Posted(targets: seq<int>)
    | InvalidGame
    | GameAdded(game: string)
    | Silent

  datatype BotStep = BotStep(state: BotState, reply: BotReply)

  predicate IsAdmin(cfg: Config, uid: int) {
    uid in cfg.adminIds
  }

  /** The characters a string strip removes: every character whose
      `isspace` is true (ASCII blanks and separators, and the Unicode spaces). */
  predicate IsSpace(c: char) {
    var n := c as int;
    || 9 <= n <= 13
    || 28 <= n <= 32
    || n == 0x85 || n == 0xA0 || n == 0x1680
    || 0x2000 <= n <= 0x200A
    || n == 0x2028 || n == 0x2029 || n == 0x202F || n == 0x205F || n == 0x3000
  }

  /** On ASCII, the whitespace set is exactly the space, tab, line feed,
      carriage return, vertical tab, form feed and the four separator
      controls 0x1C to 0x1F; nothing above U+3000 is whitespace. */
  lemma AsciiWhitespace(c: char)
    ensures c as int < 128 ==> (IsSpace(c) <==> c in " \t\n\r\U{0B}\U{0C}\U{1C}\U{1D}\U{1E}\U{1F}")
    ensures c as int > 0x3000 ==> !IsSpace(c)
  {
  }

  predicate AllSpace(s: string) {
    forall i :: 0 <= i < |s| ==> IsSpace(s[i])
  }

  /** `s` without its leading whitespace. */
  function TrimStart(s: string): (r: string)
    ensures |r| <= |s| && r == s[|s| - |r|..]
    ensures AllSpace(s[..|s| - |r|])
    ensures r == [] || !IsSpace(r[0])
  {
    if |s| > 0 && IsSpace(s[0]) then
      var r := TrimStart(s[1..]);
      assert s[..|s| - |r|] == [s[0]] + s[1..][..|s| - 1 - |r|];
      r
    else s
  }

  /** `s` without its trailing whitespace. */
  function TrimEnd(s: string): (r: string)
    ensures |r| <= |s| && r == s[..|r|]
    ensures AllSpace(s[|r|..])
    ensures r == [] || !IsSpace(r[|r| - 1])
  {
    if |s| > 0 && IsSpace(s[|s| - 1]) then
      var r := TrimEnd(s[..|s| - 1]);
      assert s[|r|..] == s[..|s| - 1][|r|..] + [s[|s| - 1]];
      r
    else s
  }

  /** Whitespace stripped from both ends: the result is the middle slice of
      the text, with only whitespace before and after it. It is blank exactly
      when the whole text is whitespace, and otherwise starts and ends with a
      visible character. */
  function Strip(s: string): (r: string)
    ensures r == [] <==> AllSpace(s)
    ensures r != [] ==> !IsSpace(r[0]) && !IsSpace(r[|r| - 1])
    ensures exists i, j :: StrippedAt(s, r, i, j)
  {
    var t := TrimStart(s);
    var r := TrimEnd(t);
    StripBounds(s, t, r);
    r
  }

  /** `r` is the slice `s[i..j]` and everything outside it is whitespace. */
  predicate StrippedAt(s: string, r: string, i: int, j: int) {
    0 <= i <= j <= |s| && r == s[i..j] && AllSpace(s[..i]) && AllSpace(s[j..])
  }

  lemma {:induction false} StripBounds(s: string, t: string, r: string)
    requires t == TrimStart(s) && r == TrimEnd(t)
    ensures r == [] <==> AllSpace(s)
    ensures exists i, j :: StrippedAt(s, r, i, j)
  {
    StripBlank(s, t, r);
    StripSlice(s, t, r);
  }

  /** The stripped text sits at offset `|s| - |t|`, with whitespace on both sides. */
  lemma {:induction false} StripSlice(s: string, t: string, r: string)
    requires t == TrimStart(s) && r == TrimEnd(t)
    ensures StrippedAt(s, r, |s| - |t|, |s| - |t| + |r|)
  {
    var k := |s| - |t|;
    assert t == s[k..] && AllSpace(s[..k]);
    assert r == t[..|r|] && AllSpace(t[|r|..]);
    SliceOfSlice(s, t, r);
  }

  /** Slicing a suffix `t` of `s` down to a prefix `r` of `t`. */
  lemma {:induction false} SliceOfSlice(s: string, t: string, r: string)
    requires |t| <= |s| && t == s[|s| - |t|..]
    requires |r| <= |t| && r == t[..|r|] && AllSpace(t[|r|..])
    ensures r == s[|s| - |t|..|s| - |t| + |r|]
    ensures AllSpace(s[|s| - |t| + |r|..])
  {
  }

  lemma {:induction false} StripBlank(s: string, t: string, r: string)
    requires t == TrimStart(s) && r == TrimEnd(t)
    ensures r == [] <==> AllSpace(s)
  {
    var k := |s| - |t|;
    assert t == s[k..];
    if r == [] {
      assert AllSpace(t) by {
        assert t[|r|..] == t;
      }
      forall i | 0 <= i < |s|
        ensures IsSpace(s[i])
      {
        if i < k {
          assert s[i] == s[..k][i];
        } else {
          assert s[i] == t[i - k];
        }
      }
    } else {
      assert s[k] == t[0];
    }
  }

  /** The groups a post goes to: always the daily group, and the weekend
      group too on Friday to Sunday (weekday 4 to 6, Monday being 0) when
      one is configured. */
  function PostTargets(cfg: Config, weekday: int): (targets: seq<int>)
    ensures 1 <= |targets| <= 2 && targets[0] == cfg.dailyGroupId
    ensures |targets| == 2 <==> 4 <= weekday <= 6 && cfg.weekendGroupId != 0
    ensures |targets| == 2 ==> targets[1] == cfg.weekendGroupId
  {
    if weekday in {4, 5, 6} && cfg.weekendGroupId != 0 then [cfg.dailyGroupId, cfg.weekendGroupId]
    else [cfg.dailyGroupId]
  }

  /** A press of one of the admin menu buttons on `weekday`. */
  function OnButton(s: BotState, cfg: Config, uid: int, button: string, weekday: int): (o: BotStep)
    ensures !IsAdmin(cfg, uid) ==> o == BotStep(s, NotAuthorized)
    ensures IsAdmin(cfg, uid) && button == "add_game" ==>
              o.state == s.(awaiting := s.awaiting[uid := true]) && o.reply == AskForGame
    ensures IsAdmin(cfg, uid) && button == "clear_games" ==>
              o.state == s.(games := []) && o.reply == GamesCleared
    ensures IsAdmin(cfg, uid) && button == "post_games" && s.games == [] ==>
              o == BotStep(s, NothingToPost)
    ensures IsAdmin(cfg, uid) && button == "post_games" && s.games != [] ==>
              o.state == s.(games := []) && o.reply == Posted(PostTargets(cfg, weekday))
    ensures button !in {"add_game", "clear_games", "post_games"} ==> o.state == s
    ensures button != "add_game" ==> o.state.awaiting == s.awaiting
  {
    if !IsAdmin(cfg, uid) then BotStep(s, NotAuthorized)
    else if button == "add_game" then BotStep(s.(awaiting := s.awaiting[uid := true]), AskForGame)
    else if button == "list_games" then BotStep(s, ShowGames)
    else if button == "clear_games" then BotStep(s.(games := []), GamesCleared)
    else if button == "post_games" then
      if s.games == [] then BotStep(s, NothingToPost)
      else BotStep(s.(games := []), Posted(PostTargets(cfg, weekday)))
    else BotStep(s, Silent)
  }

  /** A text message from `uid`. An admin's waiting flag is consumed by
      whatever text reaches the listener (commands never do); the stripped
      line is added only if the flag was set and the line is not blank. */
  function OnMessage(s: BotState, cfg: Config, uid: int, text: string): (o: BotStep)
    ensures !IsAdmin(cfg, uid) ==> o == BotStep(s, Silent)
    ensures IsAdmin(cfg, uid) ==> o.state.awaiting == s.awaiting - {uid}
    ensures o.state.games != s.games <==>
              IsAdmin(cfg, uid) && uid in s.awaiting && s.awaiting[uid] && !AllSpace(text)
    ensures o.state.games != s.games ==>
              o.state.games == s.games + [Strip(text)] && o.reply == GameAdded(Strip(text))
  {
    if !IsAdmin(cfg, uid) then BotStep(s, Silent)
    else
      var waiting := if uid in s.awaiting then s.awaiting[uid] else false;
      var s' := s.(awaiting := s.awaiting - {uid});
      if !waiting then BotStep(s', Silent)
      else
        var line := Strip(text);
        if line == [] then BotStep(s', InvalidGame)
        else BotStep(s'.(games := s.games + [line]), GameAdded(line))
  }

  /** Pressing "add game" and then sending a non-blank line appends that
      line, stripped, and leaves the admin no longer waiting. */
  lemma AddThenSendAppends(s: BotState, cfg: Config, uid: int, text: string, weekday: int)
    requires IsAdmin(cfg, uid)
    requires !AllSpace(text)
    ensures var s1 := OnButton(s, cfg, uid, "add_game", weekday).state;
            var o := OnMessage(s1, cfg, uid, text);
            o.state.games == s.games + [Strip(text)] && uid !in o.state.awaiting
  {
  }

  /** Posting empties the list, so an immediate second post has nothing to send. */
  lemma SecondPostHasNothing(s: BotState, cfg: Config, uid: int, weekday: int)
    requires IsAdmin(cfg, uid)
    ensures var s1 := OnButton(s, cfg, uid, "post_games", weekday).state;
            OnButton(s1, cfg, uid, "post_games", weekday).reply == NothingToPost
  {
  }
}

=== FILE: settings.dfy ===
/** The environment configuration the backend reads once at start-up,
    passed explicitly to every operation. */
module Settings {

  const SecondsPerDay: int := 24 * 3600

  datatype Config = Config(
    webhookSecret: string,     // secret for the webhook signature; empty disables the check
    gatewayKey: string,        // key for re-verifying a charge with the gateway; empty skips it
    adminKey: string,          // key the admin ledger read demands; empty leaves it open
    dailyPlanAmount: int,      // major-unit price at or above which a charge buys the daily plan
    dailyPlanDuration: int,    // days of access bought by the daily plan
    weekendPlanDuration: int,  // days of access bought by any other plan
    expiryAlertDays: int,      // days before expiry from which reminders are sent
    dailyGroupId: int,
    weekendGroupId: int,
    adminIds: seq<int>)        // results-bot administrators

  /** The values used when the environment sets nothing: the admin list
      then holds the single identifier 0. */
  const Defaults: Config := Config("", "", "", 50000, 30, 30, 3, 0, 0, [0])
}

=== FILE: store.dfy ===
/** The subscription ledger: subscriber email to record, kept in insertion
    order because the identity lookup takes the first match in that order. */
module Store {
  import opened Values

  datatype Record = Record(
    email: string,
    plan: string,
    reference: string,      // payment reference of the latest applied charge
    expiresAt: int,         // Unix seconds
    active: bool,
    chatId: Option<int>)    // chat identity, None until linked

  datatype Ledger = Ledger(order: seq<string>, users: map<string, Record>)

  ghost predicate Distinct(s: seq<string>) {
    forall i, j :: 0 <= i < j < |s| ==> s[i] != s[j]
  }

  /** The order lists every key of the map exactly once. */
  ghost predicate Valid(l: Ledger) {
    && Distinct(l.order)
    && forall e :: e in l.order <==> e in l.users
  }

  const Empty: Ledger := Ledger([], map[])

  /** Stores `r` under `email`: an existing email keeps its place in the
      order, a new one goes last. */
  function Put(l: Ledger, email: string, r: Record): (l': Ledger)
    requires Valid(l)
    ensures Valid(l')
    ensures l'.users == l.users[email := r]
    ensures email in l.users ==> l'.order == l.order
    ensures email !in l.users ==> l'.order == l.order + [email]
  {
    if email in l.users then Ledger(l.order, l.users[email := r])
    else Ledger(l.order + [email], l.users[email := r])
  }
}

=== FILE: sweep.dfy ===
/** One tick of the background expiry checker: reminders for records close
    to expiry, deactivation of records past it, and a save only when some
    record was deactivated. */
module Sweep {
  import opened Values
  import opened Settings
  import opened Store

  /** Messages a tick sends: a reminder to the linked chat, a reminder
      relayed to the admin when no chat is linked, or an expiry notice to the admin. */
  datatype Notice =
    | UserReminder(email: string, chatId: int)
    | AdminReminder(email: string, reference: string)
    | AdminExpired(email: string)

  datatype TickOutcome = TickOutcome(ledger: Ledger, notices: seq<Notice>, saved: bool)

  function AlertSeconds(cfg: Config): int {
    cfg.expiryAlertDays * SecondsPerDay
  }

  /** Records the checker looks at: active, with a non-zero expiry. */
  predicate Watched(r: Record) {
    r.active && r.expiresAt != 0
  }

  /** A watched record whose expiry lies within the alert window ahead. */
  predicate ReminderDue(r: Record, now: int, cfg: Config) {
    Watched(r) && 0 < r.expiresAt - now <= AlertSeconds(cfg)
  }

  /** A watched record whose expiry has been reached. */
  predicate ExpiryDue(r: Record, now: int) {
    Watched(r) && r.expiresAt <= now
  }

  /** A record as the tick leaves it. */
  function Settle(r: Record, now: int): Record {
    if ExpiryDue(r, now) then r.(active := false) else r
  }

  /** Only active records are due anything, and a record due a reminder
      (still in the future) is never also due to expire. */
  lemma DueCasesDisjoint(r: Record, now: int, cfg: Config)
    ensures ReminderDue(r, now, cfg) ==> r.active && now < r.expiresAt && !ExpiryDue(r, now)
    ensures ExpiryDue(r, now) ==> r.active && r.expiresAt <= now
    ensures !r.active ==> !ReminderDue(r, now, cfg) && !ExpiryDue(r, now)
  {
  }

  /** Settling changes at most the active flag, clears it exactly for a
      record due to expire, and leaves nothing due to expire. */
  lemma SettleOnlyClearsActive(r: Record, now: int)
    ensures Settle(r, now) == r.(active := Settle(r, now).active)
    ensures Settle(r, now).active <==> r.active && !ExpiryDue(r, now)
    ensures !ExpiryDue(Settle(r, now), now)
    ensures Settle(Settle(r, now), now) == Settle(r, now)
  {
  }

  /** The messages one record gives rise to in a tick. */
  function NoticesFor(email: string, r: Record, now: int, cfg: Config): (ns: seq<Notice>)
    ensures |ns| <= 1
    ensures !Watched(r) ==> ns == []
    ensures forall n :: n in ns ==> n.email == email
    ensures (exists n :: n in ns && !n.AdminExpired?) <==> ReminderDue(r, now, cfg)
    ensures AdminExpired(email) in ns <==> ExpiryDue(r, now)
  {
    var reminder :=
      if !ReminderDue(r, now, cfg) then []
      else if GivenId(r.chatId) then [UserReminder(email, r.chatId.value)]
      else [AdminReminder(email, r.reference)];
    var expiry := if ExpiryDue(r, now) then [AdminExpired(email)] else [];
    assert ReminderDue(r, now, cfg) ==> reminder[0] in reminder + expiry;
    reminder + expiry
  }

  /** Who a reminder goes to: the linked chat when one is set, otherwise the
      admin, who is given the record's reference to pass on. */
  lemma ReminderRecipient(email: string, r: Record, now: int, cfg: Config)
    requires ReminderDue(r, now, cfg)
    ensures GivenId(r.chatId) ==> NoticesFor(email, r, now, cfg) == [UserReminder(email, r.chatId.value)]
    ensures !GivenId(r.chatId) ==> NoticesFor(email, r, now, cfg) == [AdminReminder(email, r.reference)]
  {
  }

  /** The messages of a whole tick, record by record in ledger order. */
  function Notices(keys: seq<string>, users: map<string, Record>, now: int, cfg: Config): (ns: seq<Notice>)
    requires forall k :: k in keys ==> k in users
    ensures forall n :: n in ns ==> n.email in keys
  {
    if keys == [] then []
    else
      var last := keys[|keys| - 1];
      Notices(keys[..|keys| - 1], users, now, cfg) + NoticesFor(last, users[last], now, cfg)
  }

  /** The ledger with every record settled. */
  function Swept(l: Ledger, now: int): (l': Ledger)
    requires Valid(l)
    ensures Valid(l')
    ensures l'.order == l.order && l'.users.Keys == l.users.Keys
  {
    Ledger(l.order, map e | e in l.users :: Settle(l.users[e], now))
  }

  ghost predicate Reminded(ns: seq<Notice>, e: string) {
    exists n :: n in ns && n.email == e && !n.AdminExpired?
  }

  /** The checker's treatment of one record: the reminder it sends, the
      expiry notice, and the record as it is left. */
  method Visit(email: string, u: Record, now: int, cfg: Config) returns (u': Record, step: seq<Notice>, expired: bool)
    ensures expired <==> ExpiryDue(u, now)
    ensures u' == Settle(u, now)
    ensures step == NoticesFor(email, u, now, cfg)
  {
    u' := u;
    step := [];
    expired := false;
    if ReminderDue(u, now, cfg) {
      if GivenId(u.chatId) {
        step := [UserReminder(email, u.chatId.value)];
      } else {
        step := [AdminReminder(email, u.reference)];
      }
    }
    if ExpiryDue(u, now) {
      u' := u.(active := false);
      expired := true;
      step := step + [AdminExpired(email)];
    }
  }

  /** The pass over the loaded records in ledger order: the records as the
      tick leaves them, the messages sent, and whether any record was
      deactivated. */
  method Scan(l: Ledger, now: int, cfg: Config) returns (users: map<string, Record>, notices: seq<Notice>, changed: bool)
    requires forall k :: k in l.order ==> k in l.users
    ensures users == SettledUpTo(l, |l.order|, now)
    ensures changed == AnyDue(l.order, l.users, now)
    ensures notices == Notices(l.order, l.users, now, cfg)
  {
    users := l.users;
    notices := [];
    changed := false;
    var i := 0;
    while i < |l.order|
      invariant 0 <= i <= |l.order|
      invariant users == SettledUpTo(l, i, now)
      invariant changed == AnyDue(l.order[..i], l.users, now)
      invariant notices == Notices(l.order[..i], l.users, now, cfg)
    {
      var email := l.order[i];
      var u', step, expired := Visit(email, l.users[email], now, cfg);
      if expired {
        users := users[email := u'];
        changed := true;
      }
      NoticesStep(l, i, now, cfg);
      notices := notices + step;
      i := i + 1;
    }
    assert l.order[..i] == l.order;
  }

  /** One tick at time `now`: the ledger is saved only when the pass
      deactivated some record. */
  method Tick(l: Ledger, now: int, cfg: Config) returns (t: TickOutcome)
    requires Valid(l)
    ensures t.notices == Notices(l.order, l.users, now, cfg)
    ensures t.saved <==> exists e :: e in l.users && ExpiryDue(l.users[e], now)
    ensures t.ledger.order == l.order && t.ledger.users.Keys == l.users.Keys
    ensures forall e :: e in l.users ==> t.ledger.users[e] == Settle(l.users[e], now)
    ensures t.saved ==> t.ledger == Swept(l, now)
    ensures !t.saved ==> t.ledger == l
  {
    var users, notices, changed := Scan(l, now, cfg);
    SettledUpToFacts(l, |l.order|, now);
    SettledEverywhere(l, users, now);
    DueSomewhere(l.order, l.users, now);
    if changed {
      SettledIsSwept(l, users, now);
      t := TickOutcome(Ledger(l.order, users), notices, true);
    } else {
      t := TickOutcome(l, notices, false);
    }
  }

  /** The ledger's records after the pass has visited the first `i`
      positions: each visited record past expiry is written back inactive. */
  function SettledUpTo(l: Ledger, i: nat, now: int): map<string, Record>
    requires forall k :: k in l.order ==> k in l.users
    requires i <= |l.order|
  {
    if i == 0 then l.users
    else
      var e := l.order[i - 1];
      var prev := SettledUpTo(l, i - 1, now);
      if ExpiryDue(l.users[e], now) then prev[e := l.users[e].(active := false)] else prev
  }

  /** With distinct keys, after `i` positions those are settled and the rest are as loaded. */
  lemma {:induction false} SettledUpToFacts(l: Ledger, i: nat, now: int)
    requires Distinct(l.order) && (forall k :: k in l.order ==> k in l.users) && i <= |l.order|
    ensures SettledUpTo(l, i, now).Keys == l.users.Keys
    ensures forall j :: 0 <= j < |l.order| ==>
              SettledUpTo(l, i, now)[l.order[j]] == if j < i then Settle(l.users[l.order[j]], now) else l.users[l.order[j]]
  {
    if i > 0 {
      SettledUpToFacts(l, i - 1, now);
      var e := l.order[i - 1];
      var prev := SettledUpTo(l, i - 1, now);
      assert SettledUpTo(l, i, now) == prev[e := Settle(l.users[e], now)];
      forall j | 0 <= j < |l.order|
        ensures SettledUpTo(l, i, now)[l.order[j]]
                  == if j < i then Settle(l.users[l.order[j]], now) else l.users[l.order[j]]
      {
        if j != i - 1 {
          assert l.order[j] != e;
        }
      }
    }
  }

  /** Whether some record among `keys` is due to expire. */
  predicate AnyDue(keys: seq<string>, users: map<string, Record>, now: int)
    requires forall k :: k in keys ==> k in users
  {
    keys != [] && (AnyDue(keys[..|keys| - 1], users, now) || ExpiryDue(users[keys[|keys| - 1]], now))
  }

  /** Visiting position `i` extends the tick's messages by that record's. */
  lemma NoticesStep(l: Ledger, i: int, now: int, cfg: Config)
    requires forall k :: k in l.order ==> k in l.users
    requires 0 <= i < |l.order|
    ensures forall k :: k in l.order[..i + 1] ==> k in l.users
    ensures AnyDue(l.order[..i + 1], l.users, now)
              == (AnyDue(l.order[..i], l.users, now) || ExpiryDue(l.users[l.order[i]], now))
    ensures Notices(l.order[..i + 1], l.users, now, cfg)
              == Notices(l.order[..i], l.users, now, cfg) + NoticesFor(l.order[i], l.users[l.order[i]], now, cfg)
  {
    assert l.order[..i + 1][..i] == l.order[..i];
  }

  /** A map that settles every position of the order settles every record. */
  lemma SettledEverywhere(l: Ledger, users: map<string, Record>, now: int)
    requires Valid(l)
    requires users.Keys == l.users.Keys
    requires forall j :: 0 <= j < |l.order| ==> users[l.order[j]] == Settle(l.users[l.order[j]], now)
    ensures forall e :: e in l.users ==> users[e] == Settle(l.users[e], now)
  {
  }

  lemma SettledIsSwept(l: Ledger, users: map<string, Record>, now: int)
    requires Valid(l)
    requires users.Keys == l.users.Keys
    requires forall e :: e in l.users ==> users[e] == Settle(l.users[e], now)
    ensures Ledger(l.order, users) == Swept(l, now)
  {
  }

  /** Some key is due exactly when some record it names is. */
  lemma {:induction false} DueSomewhere(keys: seq<string>, users: map<string, Record>, now: int)
    requires forall k :: k in keys ==> k in users
    ensures AnyDue(keys, users, now) <==> exists e :: e in keys && ExpiryDue(users[e], now)
  {
    if keys != [] {
      var init := keys[..|keys| - 1];
      DueSomewhere(init, users, now);
      assert forall e :: e in keys <==> e in init || e == keys[|keys| - 1];
    }
  }

  /** A tick's messages name a record exactly when its reminder or expiry is
      due: a reminder when the record is close to expiry, one expiry notice
      when it is past it. */
  lemma {:induction false} NoticesMatchDueRecords(keys: seq<string>, users: map<string, Record>, now: int, cfg: Config, e: string)
    requires forall k :: k in keys ==> k in users
    ensures Reminded(Notices(keys, users, now, cfg), e) <==> e in keys && ReminderDue(users[e], now, cfg)
    ensures AdminExpired(e) in Notices(keys, users, now, cfg) <==> e in keys && ExpiryDue(users[e], now)
  {
    if keys != [] {
      var init := keys[..|keys| - 1];
      var last := keys[|keys| - 1];
      NoticesMatchDueRecords(init, users, now, cfg, e);
      assert forall k :: k in keys <==> k in init || k == last;
      var ns := NoticesFor(last, users[last], now, cfg);
      assert Notices(keys, users, now, cfg) == Notices(init, users, now, cfg) + ns;
      if e != last {
        assert !Reminded(ns, e);
      } else {
        assert Reminded(ns, e) <==> ReminderDue(users[e], now, cfg);
      }
    }
  }

  /** No record carries a "reminder sent" mark, so a record inside the alert
      window is reminded again on every later tick while it stays inside. */
  lemma ReminderRepeatsEveryTick(l: Ledger, e: string, now: int, later: int, cfg: Config)
    requires Valid(l)
    requires e in l.users
    requires ReminderDue(l.users[e], now, cfg) && ReminderDue(l.users[e], later, cfg)
    ensures Reminded(Notices(l.order, l.users, now, cfg), e)
    ensures Reminded(Notices(l.order, Swept(l, now).users, later, cfg), e)
  {
    NoticesMatchDueRecords(l.order, l.users, now, cfg, e);
    NoticesMatchDueRecords(l.order, Swept(l, now).users, later, cfg, e);
  }

  /** A record past its expiry is announced once: the tick that deactivates
      it sends the notice, and no later tick on the saved ledger does. */
  lemma ExpiryAnnouncedOnce(l: Ledger, e: string, now: int, later: int, cfg: Config)
    requires Valid(l)
    requires e in l.users && ExpiryDue(l.users[e], now)
    ensures AdminExpired(e) in Notices(l.order, l.users, now, cfg)
    ensures AdminExpired(e) !in Notices(l.order, Swept(l, now).users, later, cfg)
  {
    NoticesMatchDueRecords(l.order, l.users, now, cfg, e);
    NoticesMatchDueRecords(l.order, Swept(l, now).users, later, cfg, e);
  }

  /** A second tick at the same instant finds nothing to deactivate, so it
      does not save. */
  lemma SecondTickSavesNothing(l: Ledger, now: int)
    requires Valid(l)
    ensures !AnyDue(l.order, Swept(l, now).users, now)
  {
    DueSomewhere(l.order, Swept(l, now).users, now);
  }
}

=== FILE: values.dfy ===
/** Optional values and the truthiness rules the webhook and link handlers
    apply to JSON fields: a field "counts" only when it is present and
    non-empty (strings) or non-zero (identifiers). */
module Values {

  datatype Option<+T> = None | Some(value: T)

  datatype Result<+R, +E> = Success(value: R) | Failure(error: E)

  /** A string field that is present and non-empty, i.e. true in a boolean test. */
  predicate Given(o: Option<string>) {
    o.Some? && o.value != ""
  }

  /** An integer field that is present and non-zero, i.e. true in a boolean test. */
  predicate GivenId(o: Option<int>) {
    o.Some? && o.value != 0
  }

  /** `a or b` on optional strings: the first operand when it is true, else the second as it is. */
  function Or(a: Option<string>, b: Option<string>): (r: Option<string>)
    ensures Given(r) <==> Given(a) || Given(b)
    ensures Given(a) ==> r == a
  {
    if Given(a) then a else b
  }

  /** `a or b` on optional identifiers. */
  function OrId(a: Option<int>, b: Option<int>): (r: Option<int>)
    ensures GivenId(r) <==> GivenId(a) || GivenId(b)
    ensures GivenId(a) ==> r == a
  {
    if GivenId(a) then a else b
  }
}
